=== FILE: README.md ===
# Storefront cart, checkout and locale logic — a Dafny model

This project models the pure logic inside the storefront scripts of an
e-commerce site:

- the **cart state store** (`setCartState`, `getCartState`, `clearCartState`)
  and the two window events an accepted snapshot publishes, `cart:updated`
  and `cart:items-change`;
- the **initial cart fetch** and the **line-item removal** flow
  (`getAndStoreCartState`, `handleVariantRemove`,
  `checkForPotentialCartRedirect`), with the network answers, the page
  address and the payment widget's presence as inputs and an ordered effect
  trace as output;
- the **checkout renderer** (`updateCartPrice`, `updateCheckoutPrice`,
  `updateCheckoutItems`) as a pure view model computed from a snapshot and the
  `showTaxes` flag;
- the **locale link rewriting** of `common.js` and its copy in the
  `locale-changer` element, proved to compute the same URL;
- the **navigation dropdown** transitions, `handleAriaExpanded` and the
  `modalchange` listener.

Money is held as integers in minor units. A URL is parsed outside the model:
the caller supplies the parsed URL (prefix, pathname, suffix) or None when
`new URL` threw.

Modules: `Wrappers` (Option), `Text` (split, join, filter, includes,
ASCII lower-casing), `Cart` (snapshot datatypes and sums), `CartState`,
`CartRemoval`, `CheckoutView`, `LocaleUrl`, `LocaleChanger`, `Dropdown`.

Behaviour worth noting, modelled as the code has it:

- `setCartState(null)` is not ignored. `typeof null` is `'object'`, so `null`
  is written to the cache (a later read then finds nothing), `cart:updated` is
  published, and the call throws on `null.order_items` before the second event.
- The product-count label is singular exactly for a count of 1 only when the
  count is not negative; a negative quantity sum also gets the singular label.
- A failed payment refresh during checkout leaves a suspended payment widget
  suspended.
- The payment widget's presence is read twice, before the POST and after the
  payment refresh, so a widget that appears in between is resumed without
  having been suspended.
- A click on a nav item that has `aria-expanded` runs the document's click
  listener after the item's own, which inverts the attribute while the
  dropdown stays as it was; after hovering a dropdown open and clicking it,
  the item says `"false"` over an open dropdown.
- The redirect after a completed removal tests for `checkout` anywhere in the
  address, while the early redirect tests for `/w/checkout`; the late one can
  therefore only fire on pages off the `/w/checkout` path.

## Model

| member | source | states |
|---|---|---|
| Text.Split | js/common.js:31 | `split('/')` yields at least one piece and no piece contains the separator |
| Text.JoinSplit | js/common.js:31 | joining the pieces of a split with the same separator gives back the original string |
| Text.SplitJoin | js/common.js:47 | splitting the join of at least one separator-free piece gives back exactly those pieces |
| Text.NonEmpty | js/common.js:31 | the empty-segment filter leaves only non-empty pieces, each from the input, never more than the input |
| Text.NonEmptyAppend | js/common.js:31 | filtering distributes over concatenation, so the kept segments keep their relative order |
| Text.NonEmptyKeeps | js/common.js:31 | a list with no empty piece passes the filter unchanged |
| Text.Segments | js/common.js:31 | the path segments are non-empty and slash-free |
| Text.SegmentsOfRootedJoin | js/common.js:47 | reading back `'/' + segments.join('/')` gives the same non-empty, slash-free segments |
| Text.ContainsSuffix | js/cart_tracker.js:88-122 | an address that includes `p + q` includes `q` |
| Text.LowerSlash | js/common.js:45 | lower-casing neither adds nor removes a slash, so the new locale stays one segment |
| LocaleUrl.RewritePath | js/common.js:38-47 | the new pathname always begins at the root slash |
| LocaleUrl.GetUrlForLocale | js/common.js:28-55 | an error is logged exactly on a parse failure or a missing locale, and then the current URL comes back unchanged; otherwise the part before the path and the part after it are kept and the path between them is the rewritten one |
| LocaleUrl.RewrittenSegments | js/common.js:34-47 | for a non-empty, slash-free locale: read back, the new path's first segment is the lower-cased locale; a leading two-letter segment is replaced (same segment count), any other is kept (one more segment); other segments keep their order; splitting the new path on `/` gives the root's empty piece followed by exactly those segments, so no `//` appears |
| LocaleUrl.LowerLocaleSegment | js/common.js:34-45 | a lower-cased two-letter locale is itself recognised as a locale segment |
| LocaleUrl.RewritePathIdempotent | js/common.js:34-47 | for a two-letter locale, rewriting the rewritten path changes nothing |
| LocaleUrl.UrlRewriteIdempotent | js/common.js:28-49 | for a two-letter locale, rewriting the rewritten URL gives the same URL |
| LocaleUrl.EmptySegmentsDropped | js/common.js:31 | `//a//b/` has exactly the segments `a`, `b` |
| LocaleUrl.DoubleSlashExample | js/common.js:31-47 | `//a//b/` switched to `EN` becomes `/en/a/b` |
| LocaleUrl.ReplaceExample | js/common.js:34-47 | an upper-case existing locale `EN` is replaced: `/EN/w/cart` becomes `/sv/w/cart` |
| LocaleUrl.PrependExample | js/common.js:34-47 | a three-letter first segment is kept: `/eng/w` becomes `/sv/eng/w` |
| LocaleUrl.EmptyLocaleDoubleSlash | js/common.js:45-47 | an empty locale is not a segment of its own: `/w/cart` switched to `""` becomes `//w/cart` |
| LocaleChanger.GetUrlForLocale | js/locale_changer.component.js:40-66 | the element's step-by-step copy returns exactly the URL and the logging that the shared rewriting gives on every input: the current URL, logged, on a parse failure or a missing locale |
| Cart.SumByAppend | js/cart_tracker.js:51 | the left-fold sum of two runs of lines is the sum of their sums |
| Cart.SumByCons | js/cart_tracker.js:178-182 | the left fold equals the first term plus the sum of the rest |
| Cart.SumByNonNegative | js/cart_tracker.js:178 | non-negative terms give a non-negative sum |
| Cart.SumByDifference | js/cart_tracker.js:181-190 | the difference of two sums is the sum of the per-line differences |
| Cart.QuantitySumExample | js/cart_tracker.js:51 | quantities 2 and 1 sum to 3 |
| CartState.GetCartState | js/cart_tracker.js:127-129 | a read finds a snapshot exactly when one is cached; an absent key or a cached `null` reads as nothing |
| CartState.ClearCartState | js/cart_tracker.js:131-133 | after clearing the key is absent and a read finds nothing |
| CartState.ClearIdempotent | js/cart_tracker.js:131-133 | clearing twice equals clearing once |
| CartState.SetCartState | js/cart_tracker.js:47-53 | a non-object changes nothing and publishes nothing; a snapshot is read back as set and publishes `cart:updated` then `cart:items-change` with the quantity sum; `null` is cached, publishes only `cart:updated`, and throws |
| CartState.FetchAndStore | js/cart_tracker.js:29-45 | an error is logged exactly when the response is not ok, and then the cache is left and nothing is published; an ok body is handed to the store |
| CartState.GetAfterSet | js/cart_tracker.js:47-53 | reading right after setting a snapshot returns that snapshot |
| CartState.LastSetWins | js/cart_tracker.js:47-53 | of two sets in a row the second determines the cache |
| CartState.ItemsChangeCountExample | js/cart_tracker.js:50-51 | a snapshot with quantities 2 and 1 publishes a count of 3 as the second event |
| CartRemoval.Without | js/cart_tracker.js:114-116 | no card of the removed variant remains, every other variant keeps exactly as many cards as it had, nothing new appears |
| CartRemoval.WithoutAppend | js/cart_tracker.js:114-116 | removal distributes over concatenation, so the remaining cards keep their relative order |
| CartRemoval.WithoutKeepsDuplicates | js/cart_tracker.js:114-116 | a variant rendered twice keeps both cards when another variant is removed |
| CartRemoval.CartRedirect | js/cart_tracker.js:121-125 | the final check navigates to `/w/cart` exactly when the cart is empty and the address includes `checkout` |
| CartRemoval.HandleVariantRemove | js/cart_tracker.js:55-125 | the cards of the variant are removed and the answer is stored exactly when the POST succeeded and either the page is off `/w/checkout` or the cart is non-empty and the payment refresh succeeded; otherwise cache and cards are untouched; the widget is suspended, first, exactly when present before the POST on the checkout path, and resumed exactly when present after the refresh of a completing removal on that path |
| CartRemoval.FailedRemovalIsQuiet | js/cart_tracker.js:81-84 | a failed POST leaves cache and cards, publishes nothing, does not navigate, and ends by logging |
| CartRemoval.EmptiedOnCheckoutRedirects | js/cart_tracker.js:88-93 | emptying the cart on `/w/checkout` navigates to `/w/cart` as the last effect, with no card removed and nothing stored or published |
| CartRemoval.PaymentFailureLeavesWidgetSuspended | js/cart_tracker.js:95-105 | a failed payment refresh removes no card, stores nothing, does not navigate, never resumes a suspended widget, and ends by logging |
| CartRemoval.WidgetResumedWithoutSuspend | js/cart_tracker.js:60-110 | a widget absent before the POST and present after the refresh is resumed but never suspended |
| CartRemoval.CompletedRemovalOrder | js/cart_tracker.js:114-118 | on the completing path the cards go first, then `cart:updated`, then `cart:items-change` with the quantity sum, then the redirect check, with nothing visible before the cards |
| CartRemoval.LateRedirectOnlyOffCheckoutPath | js/cart_tracker.js:88-125 | a redirect from the final check happens only on addresses that include `checkout` but not `/w/checkout` |
| CartRemoval.CheckoutPathIsCheckout | js/cart_tracker.js:88-122 | every address on the `/w/checkout` path also passes the looser `checkout` test |
| CheckoutView.SubtotalView | js/cart_tracker.js:143-157 | the empty indicator shows exactly when there are no lines, the other exactly otherwise; the total plus the order discount is the item total of the tax mode |
| CheckoutView.ProductLabel | js/cart_tracker.js:193 | the label is `produkt` or `produkter`; for a non-negative count it is `produkt` exactly when the count is 1 |
| CheckoutView.CheckoutSummary | js/cart_tracker.js:178-208 | product count is the quantity sum and the label is the one for that count; shown discount is the order discount plus combined original minus combined current price; the row is hidden exactly when the order discount is 0 and both combined prices agree; the grand total follows the tax mode; shipping only when its row exists |
| CheckoutView.DiscountRowHidden | js/cart_tracker.js:198-201 | an update can hide the discount row but never shows it again |
| CheckoutView.ItemPriceView | js/cart_tracker.js:228-239 | the strike-through pair is shown exactly when the tax-inclusive original exceeds the tax-inclusive amount, whatever the tax mode; the written amounts follow the tax mode |
| CheckoutView.ItemsView | js/cart_tracker.js:211-241 | at most one price per line, every price belongs to a rendered card, and every line whose card is rendered gets its price |
| CheckoutView.ItemsViewFromRenderedLines | js/cart_tracker.js:217-240 | every written price is the price of some line whose card is rendered |
| CheckoutView.ItemsViewAppend | js/cart_tracker.js:217-240 | the prices of two runs of lines are the prices of each run, in line order |
| CheckoutView.UpdateCartPrice | js/cart_tracker.js:135-175 | nothing is written without a cached snapshot or the side-cart total element; the summary is written exactly on `checkout` pages whose required elements exist, and a missing element on a `checkout` page is logged instead; card prices are written only on `checkout` pages, and there they are the item view of the cached lines |
| CheckoutView.DiscountIsSumOfLineDiscounts | js/cart_tracker.js:181-196 | the shown discount is the order discount plus the sum of per-line discounts |
| CheckoutView.DiscountCoversOrderDiscount | js/cart_tracker.js:181-196 | when no line is priced above its original, the shown discount is at least the order discount |
| CheckoutView.DiscountExample | js/cart_tracker.js:181-201 | originals 100 and 50, amounts 80 and 50, order discount 10 show a discount of 30 and keep the row visible |
| CheckoutView.ItemsViewAllRendered | js/cart_tracker.js:217-240 | when every line has a card there is one price per line, in line order |
| CheckoutView.ItemsViewNoneRendered | js/cart_tracker.js:217-226 | lines without a rendered card get no price |
| Dropdown.OpenDropdown | js/common.js:126-130 | opening sends `modalcloseall` first and leaves the dropdown open with `aria-expanded="true"` |
| Dropdown.CloseDropdown | js/common.js:132-135 | closing leaves the dropdown closed with `aria-expanded="false"` and sends no modal event |
| Dropdown.HandleDropdownAction | js/common.js:117-124 | an open dropdown closes and any other opens; the attribute then agrees; `modalcloseall` is sent, and sent first, exactly when opening |
| Dropdown.FollowTarget | js/common.js:78 | a missing or empty link follows `#`, any other link is followed as given |
| Dropdown.HandleInput | js/common.js:69-94 | entering with the mouse toggles the dropdown and leaves the attribute agreeing; hovering, and Enter or Space on a closed dropdown, send `modalcloseall`, first, exactly when they open it; Escape closes, writes `"false"` and sends no modal event; Enter or Space on an open dropdown only follows the link, on a closed one opens it; other keys do nothing; a click first follows the link and never opens or closes the dropdown, and a click on the item inverts its `aria-expanded` when it has one |
| Dropdown.ToggleTwice | js/common.js:117-135 | toggling twice from a consistent state restores it |
| Dropdown.HandleInputKeepsConsistent | js/common.js:70-152 | from a state where `aria-expanded` agrees with the dropdown, the two still agree after an input exactly when the input is not a click on the item |
| Dropdown.ClickAfterHoverDisagrees | js/common.js:69-152 | hovering a closed item and then clicking it leaves the dropdown open with `aria-expanded="false"` |
| Dropdown.ClickTwiceOnItemRestores | js/common.js:141-152 | two clicks on the item give back the state before them |
| Dropdown.HandleAriaExpanded | js/common.js:141-145 | the attribute becomes `"false"` exactly when it was `"true"`, otherwise `"true"` |
| Dropdown.AriaTwiceRestores | js/common.js:141-145 | from `"true"` or `"false"`, two clicks restore the value |
| Dropdown.AriaTwiceFromOtherValue | js/common.js:141-145 | from any other value two clicks end at `"false"`, not at the start value |
| Dropdown.ModalChange | js/common.js:155-166 | the matching button becomes `"false"` exactly on `close` and `"true"` on any other action; without a matching button nothing changes; other buttons never change |

## Left out

- Network requests (`fetch`), HTTP status codes beyond ok or not ok, and the misspelled `mehtod` option of the payment refresh: answers are inputs.
- `sessionStorage` and JSON serialisation: the cache is an optional stored value. A malformed cache entry cannot arise in the model, since only the store writes it.
- Objects without `order_items` handed to `setCartState` (which throw in the source): every object is a snapshot here.
- The price formatter and its `kr` suffix, and the number-to-text of the product count: the view holds the amounts and the count.
- Floating-point sums of `Number(...)` values: amounts are integers in minor units.
- WHATWG URL parsing and serialisation, percent-encoding of the pathname included: the parsed URL is an input.
- Text.Lower: lower-cases ASCII letters only, because full Unicode case mapping of `toLowerCase` is not modelled; the locale test itself only matches ASCII letters.
- The payment widget's `suspend`/`resume` callbacks: they are effects in the trace, gated by a presence flag.
- Timers, hover and focus-out closing (`CLOSE_TIMEOUT`, `setTimeout`, `mouseleave`, `focusout`) and `setupHoverModals`: timing is not modelled.
- `setupImageFlip` and `handleImageFlip`: pure DOM.
- Listener wiring (`DOMContentLoaded`, the delegated click handlers, `setupLocaleListeners`, `setupMenuDropdowns`) and the custom element's lifecycle callbacks.
- DOM elements the source dereferences without a check (the subtotal indicators, the product-count and discount elements, the discount row found by `closest('div')`, and each card's `__price`, `__price-discount` and `__price-original` elements): assumed present.
- `toggleVisibility` is not part of this model; it is taken to add the `open` class on `'open'` and remove it on `'close'`.
- CartRemoval.HandleVariantRemove: the widget's two presence reads are inputs; the callbacks passed to `suspend` and `resume` are effects, not run.
- CheckoutView.ItemsView: the source writes into the first card with the line's variant id, so two lines of one variant write the same card; the view lists one price per line.
- Dropdown.ModalChange: `querySelector` updates the first matching button only; the map holds one button per modal selector.
- The `!checkoutItemsElement` guard of `updateCheckoutItems`: a node list is never falsy, so it never fires.

=== FILE: cart.dfy ===
/**
 The cart snapshot the backend returns and the page caches. Money is held in
 integer minor units; the source parses decimal strings with `Number`.
 */
module Cart {

  /** One line of `order_items`. */
  datatype LineItem = LineItem(
    variantId: int,
    quantity: int,
    amount: int,
    preTaxAmount: int,
    originalAmount: int,
    originalAmountPreTax: int)

  /** The aggregate totals of `order`. */
  datatype Order = Order(
    itemTotal: int,
    itemPreTaxTotal: int,
    total: int,
    preTaxTotal: int,
    discountTotal: int,
    includedTaxTotal: int,
    shipmentTotal: int)

  /** The whole server-reported cart. */
  datatype Snapshot = Snapshot(order: Order, orderItems: seq<LineItem>)

  /** `items.reduce((acc, item) => acc + f(item), 0)`: folded from the left, as `reduce` does. */
  function SumBy(items: seq<LineItem>, f: LineItem -> int): int
  {
    if |items| == 0 then 0 else SumBy(items[..|items| - 1], f) + f(items[|items| - 1])
  }

  /** The quantity of one line. */
  function Quantity(item: LineItem): int
  {
    item.quantity
  }

  /** The sum of `quantity` over the lines: the count the cart badge and the checkout summary show. */
  function QuantitySum(items: seq<LineItem>): int
  {
    SumBy(items, Quantity)
  }

  /** Summing over two runs of lines is summing over each and adding. */
  lemma {:induction false} SumByAppend(xs: seq<LineItem>, ys: seq<LineItem>, f: LineItem -> int)
    ensures SumBy(xs + ys, f) == SumBy(xs, f) + SumBy(ys, f)
  {
    if |ys| == 0 {
      assert xs + ys == xs;
    } else {
      var zs := xs + ys;
      assert zs[..|zs| - 1] == xs + ys[..|ys| - 1];
      SumByAppend(xs, ys[..|ys| - 1], f);
    }
  }

  /** The sum equals the head term plus the sum of the rest: the fold read from the right. */
  lemma SumByCons(items: seq<LineItem>, f: LineItem -> int)
    requires |items| > 0
    ensures SumBy(items, f) == f(items[0]) + SumBy(items[1..], f)
  {
    SumByAppend([items[0]], items[1..], f);
    assert items == [items[0]] + items[1..];
  }

  /** Terms that are never negative give a sum that is never negative. */
  lemma {:induction false} SumByNonNegative(items: seq<LineItem>, f: LineItem -> int)
    requires forall i :: 0 <= i < |items| ==> f(items[i]) >= 0
    ensures SumBy(items, f) >= 0
  {
    if |items| > 0 {
      SumByNonNegative(items[..|items| - 1], f);
    }
  }

  /** The difference of two sums is the sum of the per-line differences `h`. */
  lemma {:induction false} SumByDifference(items: seq<LineItem>, f: LineItem -> int, g: LineItem -> int, h: LineItem -> int)
    requires forall i :: 0 <= i < |items| ==> h(items[i]) == f(items[i]) - g(items[i])
    ensures SumBy(items, f) - SumBy(items, g) == SumBy(items, h)
  {
    if |items| > 0 {
      SumByDifference(items[..|items| - 1], f, g, h);
    }
  }

  /** Lines with quantities 2 and 1 count 3. */
  lemma QuantitySumExample(a: LineItem, b: LineItem)
    requires a.quantity == 2 && b.quantity == 1
    ensures QuantitySum([a, b]) == 3
  {
    assert [a, b][..1] == [a];
    assert [a][..0] == [];
    assert SumBy([a], Quantity) == 2;
  }
}

=== FILE: cart_removal.dfy ===
/**
 Removing a line item from the cart (`handleVariantRemove` followed by
 `checkForPotentialCartRedirect`). The network answers, the page address and
 the presence of the payment widget are inputs; what the handler does is an
 effect trace together with the resulting cache and rendered cards.
 */
module CartRemoval {
  import opened Wrappers
  import opened Text
  import opened Cart
  import opened CartState

  /** Where an emptied cart sends the browser. */
  const CartPage: string := "/w/cart"

  /** One observable step of the handler, in the order it happens. */
  datatype Effect =
    | SuspendWidget               // the payment widget's `suspend()`
    | PostRemoval(variantId: int) // the POST setting the line's quantity to 0
    | RequestPayment              // the GET that refreshes the payment computation
    | ResumeWidget                // the payment widget's `resume()`
    | RemoveCards(variantId: int) // removing the variant's product cards
    | Publish(event: Event)       // a window event from `setCartState`
    | Navigate(url: string)       // assigning `window.location.href`
    | LogError                    // `console.error`

  /** The outcome of one removal: the cache, the variant ids of the product
      cards still rendered, and the effects in order. */
  datatype Removal = Removal(store: Store, cards: seq<int>, trace: seq<Effect>)

  /** The rendered cards without those of `variantId`, in the same order: no
      card of the variant remains, and every other variant keeps as many cards
      as it had (a variant may be rendered in several lists at once). */
  function Without(cards: seq<int>, variantId: int): (r: seq<int>)
    ensures variantId !in r
    ensures forall v :: v != variantId ==> multiset(r)[v] == multiset(cards)[v]
    ensures forall i :: 0 <= i < |r| ==> r[i] in cards
  {
    if |cards| == 0 then []
    else
      assert cards == [cards[0]] + cards[1..];
      (if cards[0] == variantId then [] else [cards[0]]) + Without(cards[1..], variantId)
  }

  /** Removal works list by list: the cards of two runs are filtered
      separately and keep their relative order. */
  lemma {:induction false} WithoutAppend(xs: seq<int>, ys: seq<int>, variantId: int)
    ensures Without(xs + ys, variantId) == Without(xs, variantId) + Without(ys, variantId)
  {
    if |xs| > 0 {
      assert (xs + ys)[0] == xs[0];
      assert (xs + ys)[1..] == xs[1..] + ys;
      WithoutAppend(xs[1..], ys, variantId);
    } else {
      assert xs + ys == ys;
    }
  }

  /** The main cart and the mini cart each rendering variant 7 keep both cards
      when variant 5 is removed. */
  lemma WithoutKeepsDuplicates(cards: seq<int>)
    requires cards == [7, 5, 7]
    ensures Without(cards, 5) == [7, 7]
  {
    assert cards[1..] == [5, 7] && cards[1..][1..] == [7] && [7][1..] == [];
    assert Without([7], 5) == [7];
    assert Without([5, 7], 5) == [7];
  }

  /** The events of a store step as effects. */
  function Publications(events: seq<Event>): (r: seq<Effect>)
    ensures |r| == |events|
    ensures forall i :: 0 <= i < |r| ==> r[i] == Publish(events[i])
  {
    seq(|events|, i requires 0 <= i < |events| => Publish(events[i]))
  }

  /** `checkForPotentialCartRedirect(data)`: an empty cart on a page whose
      address contains `checkout` sends the browser to the cart page. */
  function CartRedirect(data: Snapshot, href: string): (r: seq<Effect>)
    ensures r == [] || r == [Navigate(CartPage)]
    ensures r != [] <==> |data.orderItems| == 0 && Contains(href, CheckoutWord)
  {
    if |data.orderItems| == 0 && Contains(href, CheckoutWord) then [Navigate(CartPage)] else []
  }

  /** The handler reaches the card removal and the store update: the POST
      succeeded, and either the page is outside the checkout flow or the cart
      is not empty and the payment refresh succeeded. */
  predicate Completes(href: string, response: Response<Snapshot>, paymentOk: bool)
  {
    response.Ok? && (!Contains(href, CheckoutPath) || (|response.body.orderItems| > 0 && paymentOk))
  }

  /** Whether the payment widget is on the page when the handler looks for it:
      before the POST (to suspend it) and again after the payment refresh (to
      resume it). The two reads are separated by network waits, so they may differ. */
  datatype Widget = Widget(beforePost: bool, afterRefresh: bool)

  /** `handleVariantRemove` for the variant `variantId`, once its requests have
      been answered. `paymentOk` is the answer to the payment refresh, consulted
      only when it is requested. The cards are removed and the answer is stored
      exactly when the handler completes; otherwise the cache and the cards stay
      as they were. The widget is suspended first exactly when it is present on
      the checkout path, and resumed exactly when it is present after the
      refresh on a completing checkout-path removal. */
  function HandleVariantRemove(
    store: Store, cards: seq<int>, variantId: int, widget: Widget, href: string,
    response: Response<Snapshot>, paymentOk: bool): (r: Removal)
    ensures Completes(href, response, paymentOk) ==>
      && GetCartState(r.store) == Some(response.body)
      && r.cards == Without(cards, variantId)
    ensures !Completes(href, response, paymentOk) ==> r.store == store && r.cards == cards
    ensures |r.trace| >= 2
    ensures (widget.beforePost && Contains(href, CheckoutPath)) <==> r.trace[0] == SuspendWidget
    ensures SuspendWidget in r.trace <==> widget.beforePost && Contains(href, CheckoutPath)
    ensures ResumeWidget in r.trace <==>
      widget.afterRefresh && Contains(href, CheckoutPath) && Completes(href, response, paymentOk)
  {
    var onCheckout := Contains(href, CheckoutPath);
    var sent := (if widget.beforePost && onCheckout then [SuspendWidget] else []) + [PostRemoval(variantId)];
    match response
    case NotOk =>
      Removal(store, cards, sent + [LogError])
    case Ok(data) =>
      if onCheckout && |data.orderItems| == 0 then
        Removal(store, cards, sent + [Navigate(CartPage)])
      else if onCheckout && !paymentOk then
        Removal(store, cards, sent + [RequestPayment, LogError])
      else
        var refreshed := if onCheckout then [RequestPayment] + (if widget.afterRefresh then [ResumeWidget] else []) else [];
        var stored := SetCartState(store, Object(data));
        Removal(
          stored.store,
          Without(cards, variantId),
          sent + refreshed + [RemoveCards(variantId)] + Publications(stored.events) + CartRedirect(data, href))
  }

  /** No effect of the trace is visible on the page: nothing published, no card
      removed, no navigation. */
  ghost predicate Quiet(trace: seq<Effect>)
  {
    forall i :: 0 <= i < |trace| ==> !trace[i].Publish? && !trace[i].RemoveCards? && !trace[i].Navigate?
  }

  /** A failed POST leaves the cache and the cards, publishes nothing, does not
      navigate, and ends by logging. */
  lemma FailedRemovalIsQuiet(
    store: Store, cards: seq<int>, variantId: int, widget: Widget, href: string, paymentOk: bool)
    ensures var r := HandleVariantRemove(store, cards, variantId, widget, href, NotOk, paymentOk);
      && r.store == store && r.cards == cards
      && Quiet(r.trace)
      && r.trace[|r.trace| - 1] == LogError
  {
  }

  /** Emptying the cart on the checkout flow goes straight to the cart page:
      no card is removed, nothing is stored or published, and navigating is the last effect. */
  lemma EmptiedOnCheckoutRedirects(
    store: Store, cards: seq<int>, variantId: int, widget: Widget, href: string,
    data: Snapshot, paymentOk: bool)
    requires Contains(href, CheckoutPath)
    requires |data.orderItems| == 0
    ensures var r := HandleVariantRemove(store, cards, variantId, widget, href, Ok(data), paymentOk);
      && r.store == store && r.cards == cards
      && r.trace[|r.trace| - 1] == Navigate(CartPage)
      && Quiet(r.trace[..|r.trace| - 1])
  {
  }

  /** A failed payment refresh removes no card, stores nothing, does not
      navigate, leaves a suspended payment widget suspended, and ends by logging. */
  lemma PaymentFailureLeavesWidgetSuspended(
    store: Store, cards: seq<int>, variantId: int, widget: Widget, href: string, data: Snapshot)
    requires Contains(href, CheckoutPath)
    requires |data.orderItems| > 0
    ensures var r := HandleVariantRemove(store, cards, variantId, widget, href, Ok(data), false);
      && r.store == store && r.cards == cards
      && Quiet(r.trace)
      && (widget.beforePost ==> SuspendWidget in r.trace)
      && ResumeWidget !in r.trace
      && r.trace[|r.trace| - 1] == LogError
  {
  }

  /** A widget that appears only while the requests are in flight is resumed
      without ever having been suspended. */
  lemma WidgetResumedWithoutSuspend(
    store: Store, cards: seq<int>, variantId: int, href: string, data: Snapshot)
    requires Contains(href, CheckoutPath)
    requires |data.orderItems| > 0
    ensures var r := HandleVariantRemove(store, cards, variantId, Widget(false, true), href, Ok(data), true);
      && ResumeWidget in r.trace
      && SuspendWidget !in r.trace
  {
  }

  /** On the completing path the cards go first, then `cart:updated`, then
      `cart:items-change` with the quantity sum, and the redirect check comes
      last; nothing visible on the page happens before the cards go. */
  lemma CompletedRemovalOrder(
    store: Store, cards: seq<int>, variantId: int, widget: Widget, href: string,
    data: Snapshot, paymentOk: bool)
    requires Completes(href, Ok(data), paymentOk)
    ensures var t := HandleVariantRemove(store, cards, variantId, widget, href, Ok(data), paymentOk).trace;
      var k := |t| - |CartRedirect(data, href)| - 3;
      && 0 <= k
      && t[k] == RemoveCards(variantId)
      && t[k + 1] == Publish(CartUpdated(Object(data)))
      && t[k + 2] == Publish(ItemsChange(QuantitySum(data.orderItems)))
      && t[k + 3..] == CartRedirect(data, href)
      && Quiet(t[..k])
  {
  }

  /** The final redirect only fires off the checkout path: on `/w/checkout` an
      emptied cart has already been sent away before the cards are touched, so
      a navigation on the completing path means the address contains
      `checkout` but not `/w/checkout`. */
  lemma LateRedirectOnlyOffCheckoutPath(href: string, data: Snapshot, paymentOk: bool)
    requires Completes(href, Ok(data), paymentOk)
    requires CartRedirect(data, href) != []
    ensures !Contains(href, CheckoutPath)
    ensures Contains(href, CheckoutWord)
  {
  }

  /** A page on the checkout path is also a page the redirect check treats as checkout. */
  lemma CheckoutPathIsCheckout(href: string)
    requires Contains(href, CheckoutPath)
    ensures Contains(href, CheckoutWord)
  {
    assert CheckoutPath == "/w/" + CheckoutWord;
    ContainsSuffix(href, "/w/", CheckoutWord);
  }
}

=== FILE: cart_state.dfy ===
/**
 The cart state store of `cart_tracker.js`: one cached snapshot per session,
 with get, set and clear, and the two window events a set publishes.
 */
module CartState {
  import opened Wrappers
  import opened Cart

  /** The JavaScript values `setCartState` can be called with. Objects are
      cart snapshots; the guard only looks at `typeof`. */
  datatype JsValue =
    | Undefined
    | Null
    | Boolean(b: bool)
    | Number(n: int)
    | Str(s: string)
    | Object(snapshot: Snapshot)

  /** `typeof value === 'object'`, which in JavaScript holds of `null` as well. */
  predicate IsTypeofObject(v: JsValue)
  {
    v.Null? || v.Object?
  }

  /** What the session cache holds under its key, once written: the serialised
      `null` or a serialised snapshot. */
  datatype Stored = StoredNull | StoredSnapshot(snapshot: Snapshot)

  /** The session cache entry; None when the key is absent. */
  datatype Store = Store(entry: Option<Stored>)

  /** A window event published by the store. */
  datatype Event =
    | CartUpdated(detail: JsValue)   // `cart:updated`, detail: the value stored
    | ItemsChange(count: int)        // `cart:items-change`, detail: `{ count }`

  /** The result of a store operation: the new cache, the events published in
      order, whether an error was logged to the console, and whether the call
      ended by throwing. */
  datatype Step = Step(store: Store, events: seq<Event>, logged: bool, threw: bool)

  /** `getCartState()`: the cached snapshot, or None when the key is absent or holds `null`. */
  function GetCartState(store: Store): (r: Option<Snapshot>)
    ensures r.Some? <==> store.entry.Some? && store.entry.value.StoredSnapshot?
  {
    match store.entry
    case None => None
    case Some(StoredNull) => None
    case Some(StoredSnapshot(s)) => Some(s)
  }

  /** `clearCartState()`: removes the entry, so a read afterwards finds nothing. */
  function ClearCartState(store: Store): (r: Store)
    ensures r.entry.None?
    ensures GetCartState(r) == None
  {
    Store(None)
  }

  /** Clearing twice is the same as clearing once. */
  lemma ClearIdempotent(store: Store)
    ensures ClearCartState(ClearCartState(store)) == ClearCartState(store)
  {
  }

  /** `setCartState(data)`.
      A value whose `typeof` is not `object` is ignored: the cache is kept and
      nothing is published. A snapshot replaces the cache and publishes
      `cart:updated` and then `cart:items-change` with the quantity sum.
      `null` passes the guard: it is written (so a later read finds nothing),
      `cart:updated` is published, and reading `null.order_items` throws
      before the second event. */
  function SetCartState(store: Store, data: JsValue): (r: Step)
    ensures !r.logged
    ensures !IsTypeofObject(data) ==> r.store == store && r.events == [] && !r.threw
    ensures data.Object? ==>
      && GetCartState(r.store) == Some(data.snapshot)
      && r.events == [CartUpdated(data), ItemsChange(QuantitySum(data.snapshot.orderItems))]
      && !r.threw
    ensures data.Null? ==>
      && GetCartState(r.store) == None
      && r.events == [CartUpdated(Null)]
      && r.threw
  {
    match data
    case Object(s) =>
      Step(Store(Some(StoredSnapshot(s))), [CartUpdated(data), ItemsChange(QuantitySum(s.orderItems))], false, false)
    case Null =>
      Step(Store(Some(StoredNull)), [CartUpdated(data)], false, true)
    case _ =>
      Step(store, [], false, false)
  }

  /** The answer of a GET or POST to the cart endpoints: not ok, or ok with a JSON body. */
  datatype Response<T> = NotOk | Ok(body: T)

  /** `getAndStoreCartState()` once the request has been answered. A response
      that is not ok leaves the cache as it was, publishes nothing and logs an
      error; an ok body goes to `setCartState`, and nothing is logged. */
  function FetchAndStore(store: Store, response: Response<JsValue>): (r: Step)
    ensures r.logged <==> response.NotOk?
    ensures response.NotOk? ==> r.store == store && r.events == [] && !r.threw
    ensures response.NotOk? ==> GetCartState(r.store) == GetCartState(store)
    ensures response.Ok? ==> r == SetCartState(store, response.body)
  {
    match response
    case NotOk => Step(store, [], true, false)
    case Ok(body) => SetCartState(store, body)
  }

  /** Reading right after an accepted set gives back exactly the snapshot set,
      whatever was cached before. */
  lemma GetAfterSet(store: Store, s: Snapshot)
    ensures GetCartState(SetCartState(store, Object(s)).store) == Some(s)
  {
  }

  /** Two sets in a row leave what the second set: the last write wins. */
  lemma LastSetWins(store: Store, s: Snapshot, t: Snapshot)
    ensures SetCartState(SetCartState(store, Object(s)).store, Object(t)).store
         == SetCartState(store, Object(t)).store
  {
  }

  /** Of the two events of an accepted set, the first carries the snapshot and
      the second the quantity sum; `[2, 1]` gives 3. */
  lemma ItemsChangeCountExample(store: Store, s: Snapshot)
    requires |s.orderItems| == 2
    requires s.orderItems[0].quantity == 2 && s.orderItems[1].quantity == 1
    ensures SetCartState(store, Object(s)).events[1] == ItemsChange(3)
  {
    assert s.orderItems == [s.orderItems[0], s.orderItems[1]];
    QuantitySumExample(s.orderItems[0], s.orderItems[1]);
  }
}

=== FILE: checkout_view.dfy ===
/**
 What `updateCartPrice`, `updateCheckoutPrice` and `updateCheckoutItems` write
 into the page, computed as a view model from the cached snapshot and the
 page-wide `showTaxes` flag. Formatting amounts as currency is not modelled:
 the view holds the amounts the formatter would be given.
 */
module CheckoutView {
  import opened Wrappers
  import opened Text
  import opened Cart

  /** The product-count labels of the checkout summary. */
  const Singular: string := "produkt"
  const Plural: string := "produkter"

  /** The side-cart subtotal area: which of the two indicators is visible, and the total. */
  datatype Subtotal = Subtotal(hasItemsShown: bool, emptyShown: bool, total: int)

  /** The checkout summary box. `hideDiscountRow` says whether the discount row
      is hidden by this update; `shipping` is None when the optional row is absent. */
  datatype Summary = Summary(
    productCount: int,
    productLabel: string,
    combinedArticlePrice: int,
    tax: int,
    discount: int,
    hideDiscountRow: bool,
    shipping: Option<int>,
    total: int)

  /** The price written into one rendered checkout card: the original price,
      and the discounted price when the strike-through pair is shown. */
  datatype ItemPrice = ItemPrice(variantId: int, original: int, discounted: Option<int>)

  /** The parts of the page the renderer looks at. `checkoutCards` are the
      variant ids of the cards in the checkout item list, in document order. */
  datatype Page = Page(
    href: string,
    sideCartTotalPresent: bool,
    summaryElementsPresent: bool,
    shippingPresent: bool,
    checkoutCards: seq<int>)

  /** Everything one `cart:updated` render writes, and whether it logged that
      summary elements were missing. */
  datatype Render = Render(subtotal: Subtotal, summary: Option<Summary>, items: seq<ItemPrice>, logged: bool)

  /** The original (pre-discount) amount of a line in the selected tax mode. */
  function OriginalAmount(showTaxes: bool, item: LineItem): int
  {
    if showTaxes then item.originalAmount else item.originalAmountPreTax
  }

  /** The current (discounted) amount of a line in the selected tax mode. */
  function CurrentAmount(showTaxes: bool, item: LineItem): int
  {
    if showTaxes then item.amount else item.preTaxAmount
  }

  /** How much a line's own discount takes off, in the selected tax mode. */
  function ItemDiscount(showTaxes: bool, item: LineItem): int
  {
    OriginalAmount(showTaxes, item) - CurrentAmount(showTaxes, item)
  }

  /** Sum of the original amounts over the lines. */
  function OriginalCombined(items: seq<LineItem>, showTaxes: bool): int
  {
    SumBy(items, item => OriginalAmount(showTaxes, item))
  }

  /** Sum of the current amounts over the lines. */
  function CurrentCombined(items: seq<LineItem>, showTaxes: bool): int
  {
    SumBy(items, item => CurrentAmount(showTaxes, item))
  }

  /** The side-cart subtotal of `updateCartPrice`: the empty indicator shows
      exactly when there are no lines, the other indicator exactly otherwise,
      and the total is the item total of the tax mode less the order discount. */
  function SubtotalView(s: Snapshot, showTaxes: bool): (r: Subtotal)
    ensures r.emptyShown <==> |s.orderItems| == 0
    ensures r.hasItemsShown <==> |s.orderItems| > 0
    ensures r.total + s.order.discountTotal
         == (if showTaxes then s.order.itemTotal else s.order.itemPreTaxTotal)
  {
    var empty := |s.orderItems| == 0;
    var cartTotal := if showTaxes then s.order.itemTotal else s.order.itemPreTaxTotal;
    Subtotal(!empty, empty, cartTotal - s.order.discountTotal)
  }

  /** The product-count label: plural when the count is above one or zero. */
  function ProductLabel(count: int): (r: string)
    ensures r == Singular || r == Plural
    ensures count >= 0 ==> (r == Singular <==> count == 1)
  {
    if count > 1 || count == 0 then Plural else Singular
  }

  /** The checkout summary of `updateCheckoutPrice`. The shown discount is the
      order discount plus how far the combined original price exceeds the
      combined current price; the row is hidden exactly when both are zero. */
  function CheckoutSummary(s: Snapshot, showTaxes: bool, shippingPresent: bool): (r: Summary)
    ensures r.productCount == QuantitySum(s.orderItems)
    ensures r.productLabel == ProductLabel(r.productCount)
    ensures r.combinedArticlePrice == OriginalCombined(s.orderItems, showTaxes)
    ensures r.discount == s.order.discountTotal
      + (OriginalCombined(s.orderItems, showTaxes) - CurrentCombined(s.orderItems, showTaxes))
    ensures r.hideDiscountRow <==>
      s.order.discountTotal == 0 && OriginalCombined(s.orderItems, showTaxes) == CurrentCombined(s.orderItems, showTaxes)
    ensures r.tax == s.order.includedTaxTotal
    ensures r.shipping.Some? <==> shippingPresent
    ensures r.shipping.Some? ==> r.shipping.value == s.order.shipmentTotal
    ensures r.total == (if showTaxes then s.order.total else s.order.preTaxTotal)
  {
    var productCount := QuantitySum(s.orderItems);
    var original := OriginalCombined(s.orderItems, showTaxes);
    var current := CurrentCombined(s.orderItems, showTaxes);
    var orderDiscount := s.order.discountTotal;
    var orderItemsDiscount := if original != current then original - current else 0;
    Summary(
      productCount,
      ProductLabel(productCount),
      original,
      s.order.includedTaxTotal,
      orderDiscount + orderItemsDiscount,
      orderItemsDiscount == 0 && orderDiscount == 0,
      if shippingPresent then Some(s.order.shipmentTotal) else None,
      if showTaxes then s.order.total else s.order.preTaxTotal)
  }

  /** Whether the discount row is hidden after an update that was hidden before
      or not: an update can hide the row but never shows it again. */
  function DiscountRowHidden(wasHidden: bool, summary: Option<Summary>): (r: bool)
    ensures wasHidden ==> r
    ensures r <==> wasHidden || (summary.Some? && summary.value.hideDiscountRow)
  {
    match summary
    case Some(v) => wasHidden || v.hideDiscountRow
    case None => wasHidden
  }

  /** The price written into one card. The strike-through pair is shown exactly
      when the tax-inclusive original amount exceeds the tax-inclusive amount,
      whatever the tax mode; the amounts written follow the tax mode. */
  function ItemPriceView(item: LineItem, showTaxes: bool): (r: ItemPrice)
    ensures r.variantId == item.variantId
    ensures r.discounted.Some? <==> item.originalAmount > item.amount
    ensures r.original == OriginalAmount(showTaxes, item)
    ensures r.discounted.Some? ==> r.discounted.value == CurrentAmount(showTaxes, item)
  {
    if item.originalAmount > item.amount then
      ItemPrice(item.variantId, OriginalAmount(showTaxes, item), Some(CurrentAmount(showTaxes, item)))
    else
      ItemPrice(item.variantId, OriginalAmount(showTaxes, item), None)
  }

  /** `updateCheckoutItems`: one price per line whose card is rendered, in line
      order; lines without a card are skipped. Every rendered line gets its
      price, and every price written belongs to a rendered line. */
  function ItemsView(items: seq<LineItem>, showTaxes: bool, cards: seq<int>): (r: seq<ItemPrice>)
    ensures |r| <= |items|
    ensures forall j :: 0 <= j < |r| ==> r[j].variantId in cards
    ensures forall i :: 0 <= i < |items| && items[i].variantId in cards ==>
      ItemPriceView(items[i], showTaxes) in r
  {
    if |items| == 0 then []
    else
      var rest := ItemsView(items[1..], showTaxes, cards);
      assert forall i :: 1 <= i < |items| ==> items[i] == items[1..][i - 1];
      (if items[0].variantId in cards then [ItemPriceView(items[0], showTaxes)] else []) + rest
  }

  /** `p` is the price of some line of `items` whose card is rendered. */
  ghost predicate PriceOfRenderedLine(items: seq<LineItem>, showTaxes: bool, cards: seq<int>, p: ItemPrice)
  {
    exists i :: 0 <= i < |items| && items[i].variantId in cards && p == ItemPriceView(items[i], showTaxes)
  }

  /** Every price written is the price of some line whose card is rendered. */
  lemma {:induction false} ItemsViewFromRenderedLines(items: seq<LineItem>, showTaxes: bool, cards: seq<int>)
    ensures forall j :: 0 <= j < |ItemsView(items, showTaxes, cards)| ==>
      PriceOfRenderedLine(items, showTaxes, cards, ItemsView(items, showTaxes, cards)[j])
  {
    if |items| > 0 {
      ItemsViewFromRenderedLines(items[1..], showTaxes, cards);
      var rest := ItemsView(items[1..], showTaxes, cards);
      var head := if items[0].variantId in cards then [ItemPriceView(items[0], showTaxes)] else [];
      var r := ItemsView(items, showTaxes, cards);
      assert r == head + rest;
      forall j | 0 <= j < |r|
        ensures PriceOfRenderedLine(items, showTaxes, cards, r[j])
      {
        if j < |head| {
          assert r[j] == ItemPriceView(items[0], showTaxes);
          assert items[0].variantId in cards;
        } else {
          var j' := j - |head|;
          assert r[j] == rest[j'];
          assert PriceOfRenderedLine(items[1..], showTaxes, cards, rest[j']);
          var k :| 0 <= k < |items[1..]| && items[1..][k].variantId in cards
            && rest[j'] == ItemPriceView(items[1..][k], showTaxes);
          assert items[k + 1] == items[1..][k];
        }
      }
    }
  }

  /** Prices are written line by line: the lines of two runs give their prices
      one after the other, so the written prices follow the line order. */
  lemma {:induction false} ItemsViewAppend(xs: seq<LineItem>, ys: seq<LineItem>, showTaxes: bool, cards: seq<int>)
    ensures ItemsView(xs + ys, showTaxes, cards) == ItemsView(xs, showTaxes, cards) + ItemsView(ys, showTaxes, cards)
  {
    if |xs| > 0 {
      assert (xs + ys)[0] == xs[0];
      assert (xs + ys)[1..] == xs[1..] + ys;
      ItemsViewAppend(xs[1..], ys, showTaxes, cards);
    } else {
      assert xs + ys == ys;
    }
  }

  /** `updateCartPrice` on a `cart:updated` event. Nothing is written without a
      cached snapshot or without the side-cart total element. Otherwise the
      subtotal is written; on a page whose address contains `checkout` the
      summary is written when its required elements exist, and the card prices
      are written in any case. */
  function UpdateCartPrice(state: Option<Snapshot>, showTaxes: bool, page: Page): (r: Option<Render>)
    ensures r.Some? <==> state.Some? && page.sideCartTotalPresent
    ensures r.Some? ==> r.value.subtotal == SubtotalView(state.value, showTaxes)
    ensures r.Some? ==>
      (r.value.summary.Some? <==> Contains(page.href, CheckoutWord) && page.summaryElementsPresent)
    ensures r.Some? && r.value.summary.Some? ==>
      r.value.summary.value == CheckoutSummary(state.value, showTaxes, page.shippingPresent)
    ensures r.Some? ==>
      (r.value.logged <==> Contains(page.href, CheckoutWord) && !page.summaryElementsPresent)
    ensures r.Some? && r.value.logged ==> r.value.summary.None?
    ensures r.Some? && !Contains(page.href, CheckoutWord) ==> r.value.items == []
    ensures r.Some? && Contains(page.href, CheckoutWord) ==>
      r.value.items == ItemsView(state.value.orderItems, showTaxes, page.checkoutCards)
  {
    if state.None? || !page.sideCartTotalPresent then None
    else
      var s := state.value;
      var onCheckout := Contains(page.href, CheckoutWord);
      var summary :=
        if onCheckout && page.summaryElementsPresent
        then Some(CheckoutSummary(s, showTaxes, page.shippingPresent))
        else None;
      var logged := onCheckout && !page.summaryElementsPresent;
      var items := if onCheckout then ItemsView(s.orderItems, showTaxes, page.checkoutCards) else [];
      Some(Render(SubtotalView(s, showTaxes), summary, items, logged))
  }

  /** The shown discount is the order discount plus the sum of the per-line discounts. */
  lemma DiscountIsSumOfLineDiscounts(s: Snapshot, showTaxes: bool, shippingPresent: bool)
    ensures CheckoutSummary(s, showTaxes, shippingPresent).discount
         == s.order.discountTotal + SumBy(s.orderItems, item => ItemDiscount(showTaxes, item))
  {
    SumByDifference(s.orderItems,
      item => OriginalAmount(showTaxes, item),
      item => CurrentAmount(showTaxes, item),
      item => ItemDiscount(showTaxes, item));
  }

  /** When every line's original amount is at least its current amount, the
      shown discount is at least the order discount. */
  lemma DiscountCoversOrderDiscount(s: Snapshot, showTaxes: bool, shippingPresent: bool)
    requires forall i :: 0 <= i < |s.orderItems| ==>
      OriginalAmount(showTaxes, s.orderItems[i]) >= CurrentAmount(showTaxes, s.orderItems[i])
    ensures CheckoutSummary(s, showTaxes, shippingPresent).discount >= s.order.discountTotal
  {
    DiscountIsSumOfLineDiscounts(s, showTaxes, shippingPresent);
    var f := item => ItemDiscount(showTaxes, item);
    assert forall i :: 0 <= i < |s.orderItems| ==> f(s.orderItems[i]) >= 0;
    SumByNonNegative(s.orderItems, f);
  }

  /** Originals 100 and 50, current amounts 80 and 50, order discount 10:
      the line discount is 20, the shown discount 30, and the row stays visible. */
  lemma DiscountExample(s: Snapshot)
    requires |s.orderItems| == 2
    requires s.orderItems[0].originalAmount == 100 && s.orderItems[0].amount == 80
    requires s.orderItems[1].originalAmount == 50 && s.orderItems[1].amount == 50
    requires s.order.discountTotal == 10
    ensures CheckoutSummary(s, true, false).discount == 30
    ensures !CheckoutSummary(s, true, false).hideDiscountRow
  {
    var items := s.orderItems;
    var original := item => OriginalAmount(true, item);
    var current := item => CurrentAmount(true, item);
    SumByCons(items, original);
    SumByCons(items, current);
    assert items[1..][..0] == [];
    assert SumBy(items, original) == 150;
    assert SumBy(items, current) == 130;
  }

  /** When every line has a rendered card, there is one price per line, in line order. */
  lemma {:induction false} ItemsViewAllRendered(items: seq<LineItem>, showTaxes: bool, cards: seq<int>)
    requires forall i :: 0 <= i < |items| ==> items[i].variantId in cards
    ensures |ItemsView(items, showTaxes, cards)| == |items|
    ensures forall i :: 0 <= i < |items| ==>
      ItemsView(items, showTaxes, cards)[i] == ItemPriceView(items[i], showTaxes)
  {
    if |items| > 0 {
      ItemsViewAllRendered(items[1..], showTaxes, cards);
    }
  }

  /** Lines whose cards are not rendered contribute nothing. */
  lemma {:induction false} ItemsViewNoneRendered(items: seq<LineItem>, showTaxes: bool, cards: seq<int>)
    requires forall i :: 0 <= i < |items| ==> items[i].variantId !in cards
    ensures ItemsView(items, showTaxes, cards) == []
  {
    if |items| > 0 {
      ItemsViewNoneRendered(items[1..], showTaxes, cards);
    }
  }
}

=== FILE: dropdown.dfy ===
/**
 The navigation dropdowns and `aria-expanded` handling of `common.js`. A
 dropdown is open or closed and its trigger carries an `aria-expanded`
 attribute; the handlers are transitions that also list the page effects
 they cause. `toggleVisibility(dropdown, 'open' | 'close')` is taken to set or
 clear the `open` class it is given.
 */
module Dropdown {
  import opened Wrappers

  const True: string := "true"
  const False: string := "false"

  /** The attribute value that states an open (true) or closed (false) state. */
  function AriaValue(open: bool): string
  {
    if open then True else False
  }

  /** A nav item with a dropdown: whether the dropdown has the `open` class,
      and the item's `aria-expanded` attribute (`None` when it has none). */
  datatype Dropdown = Dropdown(open: bool, ariaExpanded: Option<string>)

  /** A page effect of a handler, in order. */
  datatype Effect =
    | CloseAllModals              // the window event `modalcloseall`
    | SetAriaExpanded(value: string)
    | ToggleVisibility(open: bool)
    | FollowLink(url: string)     // assigning `window.location.href`

  /** The dropdown after a handler, and the effects the handler caused. */
  datatype Step = Step(dropdown: Dropdown, effects: seq<Effect>)

  /** The item's attribute agrees with the dropdown's state. */
  predicate Consistent(d: Dropdown)
  {
    d.ariaExpanded == Some(AriaValue(d.open))
  }

  /** `openDropdown`: other modals are told to close first, then the item is
      marked expanded and the dropdown shown. */
  function OpenDropdown(d: Dropdown): (r: Step)
    ensures r.dropdown.open && Consistent(r.dropdown)
    ensures |r.effects| > 0 && r.effects[0] == CloseAllModals
    ensures SetAriaExpanded(True) in r.effects
  {
    Step(Dropdown(true, Some(True)), [CloseAllModals, SetAriaExpanded(True), ToggleVisibility(true)])
  }

  /** `closeDropdown`: the item is marked collapsed and the dropdown hidden;
      no modal event is sent. */
  function CloseDropdown(d: Dropdown): (r: Step)
    ensures !r.dropdown.open && Consistent(r.dropdown)
    ensures CloseAllModals !in r.effects
    ensures SetAriaExpanded(False) in r.effects
  {
    Step(Dropdown(false, Some(False)), [SetAriaExpanded(False), ToggleVisibility(false)])
  }

  /** `handleDropdownAction`: an open dropdown closes, any other opens. */
  function HandleDropdownAction(d: Dropdown): (r: Step)
    ensures r.dropdown.open == !d.open
    ensures Consistent(r.dropdown)
    ensures r.dropdown.open <==> (|r.effects| > 0 && r.effects[0] == CloseAllModals)
    ensures CloseAllModals in r.effects <==> r.dropdown.open
  {
    if d.open then CloseDropdown(d) else OpenDropdown(d)
  }

  /** `item.getAttribute('data-follow-link') || '#'`: a missing or empty link follows `#`. */
  function FollowTarget(link: Option<string>): (r: string)
    ensures |r| > 0
    ensures link.Some? && link.value != "" ==> r == link.value
    ensures link.None? || link.value == "" ==> r == "#"
  {
    match link
    case Some(url) => if url == "" then "#" else url
    case None => "#"
  }

  /** `handleAriaExpanded`: `"true"` becomes `"false"`; any other value,
      missing or malformed included, becomes `"true"`. */
  function HandleAriaExpanded(current: Option<string>): (r: string)
    ensures r == False <==> current == Some(True)
    ensures r == True <==> current != Some(True)
  {
    AriaValue(!(current == Some(True)))
  }

  /** The inputs reaching a nav item. A click's target is the item itself
      (`onItem`) or an element inside it. */
  datatype Input = MouseEnter | Click(onItem: bool) | KeyDown(key: string)

  /** The nav item's listeners, followed for a click by the document's click
      listener. Entering with the mouse toggles. A click follows the link, and
      when its target is the item and the item has `aria-expanded`, the
      document listener then flips that attribute without touching the
      dropdown. Escape closes. Enter or Space follow the link when the dropdown
      is open and toggle (so open) it otherwise. Other keys do nothing. */
  function HandleInput(d: Dropdown, input: Input, link: Option<string>): (r: Step)
    ensures input.MouseEnter? ==> r.dropdown.open == !d.open && Consistent(r.dropdown)
    ensures input.MouseEnter? || (input.KeyDown? && (input.key == "Enter" || input.key == " ") && !d.open) ==>
      && (CloseAllModals in r.effects <==> r.dropdown.open)
      && (r.dropdown.open ==> r.effects[0] == CloseAllModals)
    ensures input.KeyDown? && input.key == "Escape" ==>
      && r.dropdown == Dropdown(false, Some(False))
      && SetAriaExpanded(False) in r.effects
      && CloseAllModals !in r.effects
    ensures input.KeyDown? && (input.key == "Enter" || input.key == " ") ==>
      (d.open ==> r == Step(d, [FollowLink(FollowTarget(link))]))
      && (!d.open ==> r.dropdown.open)
    ensures input.KeyDown? && input.key !in {"Escape", "Enter", " "} ==> r == Step(d, [])
    ensures input.Click? ==>
      && r.dropdown.open == d.open
      && |r.effects| > 0 && r.effects[0] == FollowLink(FollowTarget(link))
    ensures input.Click? && input.onItem && d.ariaExpanded.Some? ==>
      && r.dropdown.ariaExpanded.Some?
      && (r.dropdown.ariaExpanded == Some(False) <==> d.ariaExpanded == Some(True))
    ensures input.Click? && !(input.onItem && d.ariaExpanded.Some?) ==> r.dropdown == d
  {
    match input
    case MouseEnter => HandleDropdownAction(d)
    case Click(onItem) =>
      var followed := [FollowLink(FollowTarget(link))];
      if onItem && d.ariaExpanded.Some? then
        var flipped := HandleAriaExpanded(d.ariaExpanded);
        Step(d.(ariaExpanded := Some(flipped)), followed + [SetAriaExpanded(flipped)])
      else
        Step(d, followed)
    case KeyDown(key) =>
      if key == "Escape" then CloseDropdown(d)
      else if key == "Enter" || key == " " then
        if d.open then Step(d, [FollowLink(FollowTarget(link))]) else HandleDropdownAction(d)
      else Step(d, [])
  }

  /** Toggling twice from a consistent state returns to it. */
  lemma ToggleTwice(d: Dropdown)
    requires Consistent(d)
    ensures HandleDropdownAction(HandleDropdownAction(d).dropdown).dropdown == d
  {
  }

  /** From a consistent state, every input but a click on the item keeps the
      attribute in step with the dropdown; a click on the item inverts the
      attribute while the dropdown stays as it was, so they disagree. */
  lemma HandleInputKeepsConsistent(d: Dropdown, input: Input, link: Option<string>)
    requires Consistent(d)
    ensures Consistent(HandleInput(d, input, link).dropdown) <==> !(input.Click? && input.onItem)
  {
  }

  /** Hovering a closed item opens it, and a click on it then leaves the
      dropdown open while its item says `"false"`. */
  lemma ClickAfterHoverDisagrees(d: Dropdown, link: Option<string>)
    requires Consistent(d) && !d.open
    ensures var r := HandleInput(HandleInput(d, MouseEnter, link).dropdown, Click(true), link).dropdown;
      r.open && r.ariaExpanded == Some(False)
  {
  }

  /** A second click on the item brings the attribute back in step. */
  lemma ClickTwiceOnItemRestores(d: Dropdown, link: Option<string>)
    requires Consistent(d)
    ensures HandleInput(HandleInput(d, Click(true), link).dropdown, Click(true), link).dropdown == d
  {
  }

  /** Starting from `"true"` or `"false"`, two clicks restore the value. */
  lemma AriaTwiceRestores(value: string)
    requires value == True || value == False
    ensures HandleAriaExpanded(Some(HandleAriaExpanded(Some(value)))) == value
  {
  }

  /** Any other starting value is not restored: it becomes `"true"`, then `"false"`. */
  lemma AriaTwiceFromOtherValue(value: Option<string>)
    requires value != Some(True) && value != Some(False)
    ensures HandleAriaExpanded(Some(HandleAriaExpanded(value))) == False
  {
  }

  /** The `modalchange` listener. `buttons` maps each modal selector to the
      `aria-expanded` value of the button that opens it. The matching button
      becomes `"false"` on the action `close` and `"true"` on any other action;
      with no matching button nothing changes, and other buttons never change. */
  function ModalChange(buttons: map<string, string>, element: string, action: string): (r: map<string, string>)
    ensures r.Keys == buttons.Keys
    ensures element !in buttons ==> r == buttons
    ensures element in buttons ==> (r[element] == False <==> action == "close")
    ensures element in buttons ==> (r[element] == True <==> action != "close")
    ensures forall k :: k in buttons && k != element ==> r[k] == buttons[k]
  {
    if element !in buttons then buttons
    else buttons[element := if action == "close" then False else True]
  }
}

=== FILE: locale_changer.dfy ===
/**
 The `locale-changer` custom element carries its own copy of the locale link
 rewriting. It is written here step by step, as the element's method is, and
 its contract states that it computes exactly what the shared rewriting in
 `common.js` computes.
 */
module LocaleChanger {
  import opened Wrappers
  import opened Text
  import LocaleUrl

  /** `LocaleChanger._getUrlForLocaleURLApi(currentUrl, newLocale)`. Here
      `newLocale` is the clicked element's `data-locale`, None (`null`) when the
      click lands on a child of the link; `toLowerCase` then throws inside the
      `try`, and the `catch` logs and gives back the current URL, as on a parse
      failure. */
  method GetUrlForLocale(currentUrl: string, parsed: Option<LocaleUrl.Url>, newLocale: Option<string>)
    returns (r: string, logged: bool)
    ensures LocaleUrl.Outcome(r, logged) == LocaleUrl.GetUrlForLocale(currentUrl, parsed, newLocale)
    ensures logged <==> parsed.None? || newLocale.None?
    ensures logged ==> r == currentUrl
  {
    if parsed.None? {
      return currentUrl, true;
    }
    var url := parsed.value;
    var pathSegments := Segments(url.pathname);

    var existingLocale: Option<string> := None;
    if |pathSegments| > 0 && LocaleUrl.IsLocaleSegment(pathSegments[0]) {
      existingLocale := Some(Lower(pathSegments[0]));
    }

    var newPathSegments := pathSegments;
    if existingLocale.Some? {
      newPathSegments := newPathSegments[1..];
    }
    if newLocale.None? {
      return currentUrl, true;
    }
    newPathSegments := [Lower(newLocale.value)] + newPathSegments;

    url := url.(pathname := [Slash] + Join(newPathSegments, Slash));
    r, logged := LocaleUrl.Serialize(url), false;
  }
}

=== FILE: locale_url.dfy ===
/**
 The locale link rewriting of `common.js`: the first path segment, when it is a
 two-letter locale, is replaced by the new locale; otherwise the new locale is
 put in front. Parsing and serialising the URL are not modelled: the caller
 supplies what `new URL(currentUrl)` produced, or None when it threw.
 */
module LocaleUrl {
  import opened Wrappers
  import opened Text

  /** A parsed URL: everything before the path (scheme, authority), the path,
      and everything after it (query, fragment). */
  datatype Url = Url(prefix: string, pathname: string, suffix: string)

  /** `url.toString()` */
  function Serialize(u: Url): string
  {
    u.prefix + u.pathname + u.suffix
  }

  /** `/^[a-z]{2}$/i.test(segment)`: exactly two ASCII letters of either case. */
  predicate IsLocaleSegment(segment: string)
  {
    |segment| == 2 && IsAsciiLetter(segment[0]) && IsAsciiLetter(segment[1])
  }

  /** The new segment list: the lower-cased locale, then the old segments
      without a leading locale segment. */
  function RewriteSegments(segments: seq<string>, newLocale: string): seq<string>
  {
    var kept := if |segments| > 0 && IsLocaleSegment(segments[0]) then segments[1..] else segments;
    [Lower(newLocale)] + kept
  }

  /** The new pathname: a root slash followed by the rewritten segments joined with slashes. */
  function RewritePath(pathname: string, newLocale: string): (r: string)
    ensures |r| >= 1 && r[0] == Slash
  {
    [Slash] + Join(RewriteSegments(Segments(pathname), newLocale), Slash)
  }

  /** The URL a locale link leads to, and whether the `catch` logged an error. */
  datatype Outcome = Outcome(url: string, logged: bool)

  /** `getUrlForLocaleURLApi(currentUrl, newLocale)`. `newLocale` is the link's
      attribute, None when it is `null`. A parse failure, or a `null` locale
      (whose `toLowerCase` throws inside the same `try`), is logged and gives
      back the current URL; otherwise nothing is logged and only the pathname of
      the parsed URL changes. */
  function GetUrlForLocale(currentUrl: string, parsed: Option<Url>, newLocale: Option<string>): (r: Outcome)
    ensures r.logged <==> parsed.None? || newLocale.None?
    ensures r.logged ==> r.url == currentUrl
    ensures !r.logged ==>
      var u := parsed.value;
      && |r.url| >= |u.prefix| + |u.suffix|
      && r.url[..|u.prefix|] == u.prefix
      && r.url[|r.url| - |u.suffix|..] == u.suffix
      && r.url[|u.prefix|..|r.url| - |u.suffix|] == RewritePath(u.pathname, newLocale.value)
  {
    match (parsed, newLocale)
    case (Some(url), Some(locale)) => Outcome(Serialize(url.(pathname := RewritePath(url.pathname, locale))), false)
    case _ => Outcome(currentUrl, true)
  }

  /** The locale can stand as one segment of its own: non-empty and slash-free. */
  predicate IsSegment(newLocale: string)
  {
    |newLocale| > 0 && Slash !in newLocale
  }

  /** Read back as segments, the new path is the lower-cased locale followed by
      the old segments, minus a leading two-letter locale; every other segment
      keeps its place. Split at every slash, the written path is the empty root
      piece followed by exactly those segments, so it holds no `//` and no
      trailing slash. */
  lemma RewrittenSegments(pathname: string, newLocale: string)
    requires IsSegment(newLocale)
    ensures Split(RewritePath(pathname, newLocale), Slash)
         == [""] + RewriteSegments(Segments(pathname), newLocale)
    ensures AllNonEmpty(Split(RewritePath(pathname, newLocale), Slash)[1..])
    ensures var before := Segments(pathname);
      var now := Segments(RewritePath(pathname, newLocale));
      && |now| >= 1
      && now[0] == Lower(newLocale)
      && (|before| > 0 && IsLocaleSegment(before[0]) ==> now[1..] == before[1..] && |now| == |before|)
      && (!(|before| > 0 && IsLocaleSegment(before[0])) ==> now[1..] == before && |now| == |before| + 1)
  {
    var segs := RewriteSegments(Segments(pathname), newLocale);
    LowerSlash(newLocale);
    assert segs[0] == Lower(newLocale);
    assert forall i :: 1 <= i < |segs| ==> segs[i] in Segments(pathname);
    assert SeparatorFree(segs, Slash);
    SegmentsOfRootedJoin(segs);
    SplitCons([], Slash, Join(segs, Slash));
    assert [] + [Slash] + Join(segs, Slash) == RewritePath(pathname, newLocale);
    SplitJoin(segs, Slash);
    assert ([""] + segs)[1..] == segs;
  }

  /** Lower-casing two ASCII letters gives a two-letter locale segment again. */
  lemma LowerLocaleSegment(s: string)
    requires IsLocaleSegment(s)
    ensures IsLocaleSegment(Lower(s))
  {
  }

  /** Switching to a two-letter locale twice is the same as switching once. */
  lemma {:induction false} RewritePathIdempotent(pathname: string, newLocale: string)
    requires IsLocaleSegment(newLocale)
    ensures RewritePath(RewritePath(pathname, newLocale), newLocale) == RewritePath(pathname, newLocale)
  {
    var once := RewritePath(pathname, newLocale);
    RewrittenSegments(pathname, newLocale);
    LowerLocaleSegment(newLocale);
    var segs := Segments(once);
    assert segs[0] == Lower(newLocale);
    assert RewriteSegments(segs, newLocale) == RewriteSegments(Segments(pathname), newLocale);
  }

  /** The same holds of the whole URL: rewriting the rewritten URL changes nothing more. */
  lemma UrlRewriteIdempotent(url: Url, newLocale: string)
    requires IsLocaleSegment(newLocale)
    ensures var once := url.(pathname := RewritePath(url.pathname, newLocale));
      GetUrlForLocale(Serialize(once), Some(once), Some(newLocale)) == Outcome(Serialize(once), false)
  {
    RewritePathIdempotent(url.pathname, newLocale);
  }

  /** `//a//b/` splits at its slashes into `"", "", a, "", b, ""`. */
  lemma SplitDoubleSlash()
    ensures Split("//a//b/", Slash) == ["", "", "a", "", "b", ""]
  {
    assert Split("", Slash) == [""];
    SplitCons("b", Slash, "");
    assert "b" + [Slash] + "" == "b/";
    SplitCons("", Slash, "b/");
    assert "" + [Slash] + "b/" == "/b/";
    SplitCons("a", Slash, "/b/");
    assert "a" + [Slash] + "/b/" == "a//b/";
    SplitCons("", Slash, "a//b/");
    assert "" + [Slash] + "a//b/" == "/a//b/";
    SplitCons("", Slash, "/a//b/");
    assert "" + [Slash] + "/a//b/" == "//a//b/";
  }

  /** Filtering those pieces keeps `a` and `b`, in order. */
  lemma FilterDoubleSlash()
    ensures NonEmpty(["", "", "a", "", "b", ""]) == ["a", "b"]
  {
  }

  /** Empty segments are dropped: `//a//b/` has the segments `a` and `b`. */
  lemma EmptySegmentsDropped(pathname: string)
    requires pathname == "//a//b/"
    ensures Segments(pathname) == ["a", "b"]
  {
    SplitDoubleSlash();
    FilterDoubleSlash();
  }

  /** `//a//b/` switched to `EN` reads `/en/a/b`. */
  lemma DoubleSlashExample(pathname: string, newLocale: string)
    requires pathname == "//a//b/" && newLocale == "EN"
    ensures RewritePath(pathname, newLocale) == "/en/a/b"
  {
    EmptySegmentsDropped(pathname);
    assert Lower("EN") == "en";
    assert RewriteSegments(["a", "b"], "EN") == ["en", "a", "b"];
    assert Join(["en", "a", "b"], Slash) == "en/a/b";
    assert "/en/a/b" == [Slash] + "en/a/b";
  }

  /** An existing locale in upper case is replaced, keeping the segment count. */
  lemma ReplaceExample(pathname: string, newLocale: string)
    requires pathname == "/EN/w/cart" && newLocale == "sv"
    ensures RewritePath(pathname, newLocale) == "/sv/w/cart"
  {
    SegmentsOfRootedJoin(["EN", "w", "cart"]);
    assert [Slash] + Join(["EN", "w", "cart"], Slash) == "/EN/w/cart";
    assert Lower("sv") == "sv";
    assert RewriteSegments(["EN", "w", "cart"], "sv") == ["sv", "w", "cart"];
    assert Join(["sv", "w", "cart"], Slash) == "sv/w/cart";
    assert "/sv/w/cart" == [Slash] + "sv/w/cart";
  }

  /** A first segment longer than two letters is kept and the locale goes in front. */
  lemma PrependExample(pathname: string, newLocale: string)
    requires pathname == "/eng/w" && newLocale == "sv"
    ensures RewritePath(pathname, newLocale) == "/sv/eng/w"
  {
    SegmentsOfRootedJoin(["eng", "w"]);
    assert [Slash] + Join(["eng", "w"], Slash) == "/eng/w";
    assert Lower("sv") == "sv";
    assert RewriteSegments(["eng", "w"], "sv") == ["sv", "eng", "w"];
    assert Join(["sv", "eng", "w"], Slash) == "sv/eng/w";
    assert "/sv/eng/w" == [Slash] + "sv/eng/w";
  }

  /** An empty locale is no segment of its own: `/w/cart` switched to `""`
      becomes `//w/cart`, an empty segment right after the root. */
  lemma EmptyLocaleDoubleSlash(pathname: string, newLocale: string)
    requires pathname == "/w/cart" && newLocale == ""
    ensures RewritePath(pathname, newLocale) == "//w/cart"
    ensures !IsSegment(newLocale)
  {
    SegmentsOfRootedJoin(["w", "cart"]);
    assert [Slash] + Join(["w", "cart"], Slash) == "/w/cart";
    assert Lower("") == "";
    assert RewriteSegments(["w", "cart"], "") == ["", "w", "cart"];
    assert Join(["", "w", "cart"], Slash) == "/w/cart";
    assert "//w/cart" == [Slash] + "/w/cart";
  }
}

=== FILE: text.dfy ===
/**
 The string operations the locale rewriting and the page-location checks rely on:
 JavaScript's `split` on a one-character separator, `filter` of empty pieces,
 `join`, `includes`, and ASCII lower-casing. Strings are `seq<char>`.
 */
module Text {

  /** The path separator. */
  const Slash: char := '/'

  /** JavaScript's `s.split(sep)` for a one-character separator: the pieces
      between separators, empty pieces included, and always at least one piece. */
  function Split(s: string, sep: char): (r: seq<string>)
    ensures |r| >= 1
    ensures forall i :: 0 <= i < |r| ==> sep !in r[i]
  {
    if |s| == 0 then [[]]
    else
      var rest := Split(s[1..], sep);
      if s[0] == sep then [[]] + rest
      else [[s[0]] + rest[0]] + rest[1..]
  }

  /** JavaScript's `xs.join(sep)`; the join of no pieces is the empty string. */
  function Join(xs: seq<string>, sep: char): string
  {
    if |xs| == 0 then []
    else if |xs| == 1 then xs[0]
    else xs[0] + [sep] + Join(xs[1..], sep)
  }

  /** No piece contains the separator. */
  ghost predicate SeparatorFree(xs: seq<string>, sep: char)
  {
    forall i :: 0 <= i < |xs| ==> sep !in xs[i]
  }

  /** No piece is the empty string. */
  ghost predicate AllNonEmpty(xs: seq<string>)
  {
    forall i :: 0 <= i < |xs| ==> |xs[i]| > 0
  }

  /** JavaScript's `xs.filter(p => p !== '')`: the non-empty pieces, in order. */
  function NonEmpty(xs: seq<string>): (r: seq<string>)
    ensures AllNonEmpty(r)
    ensures |r| <= |xs|
    ensures forall i :: 0 <= i < |r| ==> r[i] in xs
  {
    if |xs| == 0 then []
    else (if |xs[0]| > 0 then [xs[0]] else []) + NonEmpty(xs[1..])
  }

  /** `pathname.split('/').filter(segment => segment !== '')`. */
  function Segments(path: string): (r: seq<string>)
    ensures AllNonEmpty(r)
    ensures SeparatorFree(r, Slash)
  {
    NonEmpty(Split(path, Slash))
  }

  /** Splitting then joining with the same separator gives back the string. */
  lemma {:induction false} JoinSplit(s: string, sep: char)
    ensures Join(Split(s, sep), sep) == s
  {
    if |s| > 0 {
      var rest := Split(s[1..], sep);
      JoinSplit(s[1..], sep);
      if s[0] == sep {
        assert Split(s, sep) == [[]] + rest;
        assert ([[]] + rest)[1..] == rest;
      } else {
        var r := [[s[0]] + rest[0]] + rest[1..];
        assert Split(s, sep) == r;
        assert r[1..] == rest[1..];
        if |rest| > 1 {
          assert Join(rest, sep) == rest[0] + [sep] + Join(rest[1..], sep);
          assert Join(r, sep) == [s[0]] + rest[0] + [sep] + Join(rest[1..], sep);
        }
        assert s == [s[0]] + s[1..];
      }
    }
  }

  /** A piece free of the separator splits to itself. */
  lemma {:induction false} SplitSingle(x: string, sep: char)
    requires sep !in x
    ensures Split(x, sep) == [x]
  {
    if |x| > 0 {
      SplitSingle(x[1..], sep);
      assert x == [x[0]] + x[1..];
    }
  }

  /** Splitting `x + sep + t` yields `x` and then the pieces of `t`. */
  lemma {:induction false} SplitCons(x: string, sep: char, t: string)
    requires sep !in x
    ensures Split(x + [sep] + t, sep) == [x] + Split(t, sep)
  {
    var s := x + [sep] + t;
    if |x| == 0 {
      assert s[1..] == t;
    } else {
      assert s[1..] == x[1..] + [sep] + t;
      SplitCons(x[1..], sep, t);
      assert x == [x[0]] + x[1..];
    }
  }

  /** Joining separator-free pieces then splitting gives back the pieces. */
  lemma {:induction false} SplitJoin(xs: seq<string>, sep: char)
    requires |xs| >= 1
    requires SeparatorFree(xs, sep)
    ensures Split(Join(xs, sep), sep) == xs
  {
    if |xs| == 1 {
      SplitSingle(xs[0], sep);
    } else {
      SplitJoin(xs[1..], sep);
      SplitCons(xs[0], sep, Join(xs[1..], sep));
      assert xs == [xs[0]] + xs[1..];
    }
  }

  /** Filtering a list with no empty piece leaves it as it is. */
  lemma {:induction false} NonEmptyKeeps(xs: seq<string>)
    requires AllNonEmpty(xs)
    ensures NonEmpty(xs) == xs
  {
    if |xs| > 0 {
      NonEmptyKeeps(xs[1..]);
      assert xs == [xs[0]] + xs[1..];
    }
  }

  /** Filtering distributes over concatenation, so the kept pieces keep their order. */
  lemma {:induction false} NonEmptyAppend(xs: seq<string>, ys: seq<string>)
    ensures NonEmpty(xs + ys) == NonEmpty(xs) + NonEmpty(ys)
  {
    if |xs| > 0 {
      assert (xs + ys)[0] == xs[0];
      assert (xs + ys)[1..] == xs[1..] + ys;
      NonEmptyAppend(xs[1..], ys);
    } else {
      assert xs + ys == ys;
    }
  }

  /** The segments of `"/" + join(segs)` are `segs` again, when every segment is
      non-empty and free of slashes. */
  lemma SegmentsOfRootedJoin(segs: seq<string>)
    requires AllNonEmpty(segs)
    requires SeparatorFree(segs, Slash)
    ensures Segments([Slash] + Join(segs, Slash)) == segs
  {
    var joined := Join(segs, Slash);
    assert [Slash] + joined == [] + [Slash] + joined;
    SplitCons([], Slash, joined);
    if |segs| == 0 {
      assert Split(joined, Slash) == [[]];
      assert Split([Slash] + joined, Slash) == [[], []];
    } else {
      SplitJoin(segs, Slash);
      NonEmptyAppend([[]], segs);
      NonEmptyKeeps(segs);
    }
  }

  /** `sub` occurs in `s` starting at position `i`. */
  predicate OccursAt(s: string, sub: string, i: int)
  {
    0 <= i <= |s| - |sub| && s[i..i + |sub|] == sub
  }

  /** `s.includes(sub)`: `sub` occurs in `s` at some position. */
  predicate Contains(s: string, sub: string)
  {
    exists i :: 0 <= i <= |s| - |sub| && OccursAt(s, sub, i)
  }

  /** A string containing `p + q` contains `q`. */
  lemma ContainsSuffix(s: string, p: string, q: string)
    requires Contains(s, p + q)
    ensures Contains(s, q)
  {
    var i :| 0 <= i <= |s| - |p + q| && OccursAt(s, p + q, i);
    var j := i + |p|;
    assert s[j..j + |q|] == (p + q)[|p|..];
    assert OccursAt(s, q, j);
  }

  /** The substring by which the renderer and the final redirect check
      recognise a checkout page address. */
  const CheckoutWord: string := "checkout"

  /** The checkout flow's path, which the removal handler checks when it starts. */
  const CheckoutPath: string := "/w/checkout"

  /** ASCII lower-casing of one character; other characters are unchanged. */
  function LowerChar(c: char): char
  {
    if 'A' <= c <= 'Z' then (c as int - 'A' as int + 'a' as int) as char else c
  }

  /** `s.toLowerCase()`, for the ASCII range. */
  function Lower(s: string): (r: string)
    ensures |r| == |s|
    ensures forall i :: 0 <= i < |s| ==> r[i] == LowerChar(s[i])
  {
    seq(|s|, i requires 0 <= i < |s| => LowerChar(s[i]))
  }

  /** An ASCII letter of either case: the class `[a-z]` under the `i` flag. */
  predicate IsAsciiLetter(c: char)
  {
    'a' <= c <= 'z' || 'A' <= c <= 'Z'
  }

  /** Lower-casing keeps the slashes where they are, so it neither creates nor removes a segment boundary. */
  lemma LowerSlash(s: string)
    ensures Slash in Lower(s) <==> Slash in s
  {
  }
}

=== FILE: wrappers.dfy ===
/** Optional values, used where the source has `null` or an absent entry. */
module Wrappers {

  /** A value that may be missing: `None` stands for the source's `null`. */
  datatype Option<+T> = None | Some(value: T)
}
